=== FILE: README.md ===
# Trader-BOT core in Dafny

This project models the decision core of Trader-BOT, a single-coin
momentum trading bot. The model has three parts.

- **The rolling price window of `TradingBot`** (`main.py`).
  - Every successful poll of the feed appends the spot price and the
    24-hour change to the stored market row. Each list is then cut to its
    last 60 entries.
  - `marketValidation` hands over to trading at the first poll after which
    the window holds exactly 60 prices.
  - `wait_for_new_data` is meant to wait for 60 fresh observations after a
    trade closes.
  - The bot lower-cases its mode once, when it is built.
- **The entry-signal chain of `TradingStrategy`** (`operation/strategy.py`).
  - The momentum test is a 24-hour change of at least 1%.
  - `safe_filter_buying` then needs a stored market with at least 60
    prices, whose average is strictly below a freshly fetched price.
  - `history_check` then rejects once 3 "reject" entries for the coin are
    dated today. Otherwise it appends a buy entry to the trade history.
  - Momentum and the trend filter each raise the entry level by one when
    they pass. `history_check` returns the level it was given, so a buy
    comes two levels above the input level.
- **The two position managers of `trade_manager.py`**, one step per price
  tick.
  - The default policy holds the whole position. It ratchets a trailing
    floor up to the profit target each time the target is reached, and it
    sells when the price drops below the floor.
  - The aggressive policy splits the position into three equal tranches.
    The first is bought at the entry price when the trade opens. The
    second is bought when the price reaches the first target, and the
    third at the second target. The third target is the first trailing
    target. From then on the floor trails in the same way, and a sale
    sells every active tranche at once.
  - Each step also returns the history entries it appends.

Modules:

| Module | Contents |
|---|---|
| `Ledger` | `Option`, history entries and the reject counter |
| `Modes` | lower-casing and the policy choice |
| `PriceWindow` | the 60-entry window |
| `Strategy` | the filter chain |
| `TradeManager` | the step functions, their runs over a tick stream, and `manage_trade` |
| `Bot` | the `main.py` loops |

Conventions of the model:

- Prices and percentages are `real`.
- A feed poll is an `Option`: `None` is a poll that raised.
- A list of polls is finite. Its end stands for the bot being stopped,
  since the polling loops check the running flag.
- A tick stream is a finite list too. Its end is only where observation
  stops. The trade loops never read the running flag, so stopping the bot
  does not end an open trade.

Constants:

| Name | Value | Meaning |
|---|---|---|
| `PriceWindow.Capacity` | 60 | the window size |
| `Strategy.MinMomentum` | 1.0 | the minimum 24-hour change |
| `Strategy.MaxRejectsPerDay` | 3 | the daily reject limit |

The reject throttle and the code:

- `history_check` counts entries whose `"signal"` key is `"reject"`.
- No code path writes that key. `record_trade` stores only a timestamp, the
  coin, the action, the price and the reason.
- So the throttle never sees anything the bot wrote itself.
- The model follows the code. The `signal` field exists, and the chain is
  proved never to feed the counter (`Strategy.ChainNeverFeedsThrottle`).

## Model

| member | source | states |
|---|---|---|
| Ledger.RecordTradeNeverCounted | database/db.py:62-71 | appending the entry `record_trade` writes (the given fields and a timestamp, no signal key) leaves every coin's reject count for every day unchanged |
| Ledger.RejectsToday | operation/strategy.py:71-75 | the count is at most the history length. It is zero exactly when no entry is a "reject" for the coin dated today. It equals the length exactly when every entry is one |
| Ledger.RejectsTodayAppend | operation/strategy.py:71-75 | the count over two histories joined together is the sum of their counts |
| Ledger.UnsignalledRecordsNeverCounted | operation/strategy.py:73 | appending entries with no signal key never changes the count, since only `trade.get("signal") == "reject"` counts |
| Modes.Lower | main.py:18 | lower-casing keeps the length, maps each capital letter to its lower-case letter, and leaves every other character alone |
| Modes.LowerIdempotent | trade_manager.py:19 | lower-casing an already lower-cased mode again changes nothing |
| Modes.PolicyOfNormalisedMode | trade_manager.py:19-22 | the policy `manage_trade` picks from the bot's lower-cased mode is the one the raw mode would pick |
| Modes.AggressiveModeSpelling | trade_manager.py:19-20 | only a ten-character string spelling "aggressive" in some letter case selects the aggressive manager |
| Modes.FrontEndLabels | trade_manager.py:19-22 | "Aggressive" and "AGGRESSIVE" select the aggressive manager. "Default" and "aggressive " with a trailing space fall to the default one |
| PriceWindow.TakeLast | main.py:57-58 | for n > 0 (main.py only slices with 60), `s[-n:]` is the suffix of `s` of length exactly `min(n, len(s))` |
| PriceWindow.Push | main.py:53-58 | one append-then-truncate keeps at most 60 entries and grows by one below 60. The new value is last, and the survivors are the newest old entries in their order |
| PriceWindow.Update | main.py:53-61 | both lists get the new observation last, stay at equal length and at most 60, and grow by one exactly while below 60 |
| PriceWindow.UpdateAll | main.py:53-61 | any run of polls keeps the two lists equal in length. Their length becomes `min(60, n + k)` after k polls |
| PriceWindow.UpdateAllKeepsLatestPrices | main.py:53-60 | after any run of polls, the price list is exactly the last 60 of the old prices followed by the new ones |
| PriceWindow.UpdateAllKeepsLatestChanges | main.py:54-61 | the same for the list of 24-hour changes |
| PriceWindow.FullRefresh | main.py:99-107 | after 60 or more polls nothing old is left: both lists hold the last 60 new observations |
| Strategy.AverageBelowIff | operation/strategy.py:47-51 | the average is below the current price exactly when the sum is below the count times that price |
| Strategy.HistoryCheck | operation/strategy.py:62-86 | buy exactly when fewer than 3 rejects are dated today. A buy keeps the level and appends one buy entry at the fetched price with the mode. A reject has level 0 and appends nothing |
| Strategy.SafeFilterBuying | operation/strategy.py:32-60 | an absent market, fewer than 60 prices, or an average not strictly below the current price is a reject at level 0 with nothing appended. A buy happens exactly when the market holds at least 60 prices whose average is below the current price and the throttle passes. A buy comes one level deeper with one buy entry appended |
| Strategy.MomentumBasedEntrySignal | operation/strategy.py:17-30 | keep at level 0 exactly when the change is below 1 (a change of exactly 1 passes). A buy happens exactly when `EntryAllowed` holds, at the input level plus 2, with one buy entry appended. Every non-buy has level 0 and appends nothing |
| Strategy.ChainNeverFeedsThrottle | operation/strategy.py:71-84 | what the chain appends never changes any coin's reject count |
| Strategy.ConstantWindowThenRise | operation/strategy.py:25-53 | 60 stored prices at 50, a price of 55 and a change of 2% give a buy while fewer than 3 rejects are recorded |
| TradeManager.OpenDefault | trade_manager.py:26-27 | on entry the floor is the buy price and the target is one growth step above it |
| TradeManager.DefaultStep | trade_manager.py:32-44 | the target stays one growth step above a floor that never falls below the entry. Reaching the target moves the floor up to it without selling. The step closes exactly when the price is below the floor, with profit `(price - buy) * total/buy` and one sell entry |
| TradeManager.RunDefault | trade_manager.py:32-46 | over any tick stream the floor only rises. A run that does not close appends nothing. One that closes appends exactly one sell, below the floor, with the exit-profit formula. The run is closed no later than the first tick below the starting floor, and a consumed tick at the starting target leaves the floor at least at that target. With no consumed tick at the starting target, floor and target stay as they were |
| TradeManager.RunDefaultClosesAtLastTick | trade_manager.py:33-43 | the sell is at the price of the last tick the run consumed |
| TradeManager.DefaultExitProfitSign | trade_manager.py:41 | the default exit loses money exactly when the price is below the entry price, and breaks even exactly at it |
| TradeManager.DefaultExitWithoutRatchetLoses | trade_manager.py:35-41 | a close before any ratchet is always a loss |
| TradeManager.DefaultRatchetScenario | trade_manager.py:26-44 | entry 100 at 1%: the prices 100, 101 and 99.9 ratchet to floor 101 and target 102.01, then close at a profit of -1 |
| TradeManager.TargetsAscend | trade_manager.py:50-52 | the entry price and the three targets climb strictly |
| TradeManager.ActiveTranches | trade_manager.py:94-95 | under the loop invariant the `any(active)` guard always holds. The active size is 1 to 3 tranches of `total/buy/3` each |
| TradeManager.OpenAggressive | trade_manager.py:50-66 | entry activates only the first tranche, at target 1 and floor buy, and appends one buy entry at the buy price |
| TradeManager.AggressiveStep | trade_manager.py:68-100 | the first tranche stays active, and the third is only active after the second. Reaching the target activates the next tranche with a buy entry and moves the floor to the price, or trails once all three are in. The step closes exactly when the price is below both target and floor, selling all active tranches in one entry. Tranches never deactivate |
| TradeManager.RunAggressive | trade_manager.py:68-102 | over any tick stream the invariant holds, and the buy entries appended are exactly the tranches newly activated. When the run closes and what a reached target activates are the two lemmas below |
| TradeManager.RunAggressiveClosesBelowEntry | trade_manager.py:72-100 | an aggressive run is closed no later than the first tick below the entry price, because the floor and target never fall below it |
| TradeManager.RunAggressiveActivates | trade_manager.py:72-86 | a consumed tick at or above the starting target activates another tranche, unless all three were already active |
| TradeManager.RunAggressiveIdleKeepsState | trade_manager.py:72-100 | with no consumed tick at the starting target, tranches, target and floor stay as they were |
| TradeManager.RunAggressiveBuysBeforeSell | trade_manager.py:66-100 | every entry of a closing run before its final sell is a buy, so the run writes exactly one sell |
| TradeManager.RunAggressiveRecords | trade_manager.py:72-100 | a run that has not closed appended only buys. A closing run ends with one sell below the floor, with the profit on all active tranches |
| TradeManager.RunAggressiveClosesAtLastTick | trade_manager.py:69-99 | the sell is at the price of the last tick consumed |
| TradeManager.AtMostThreeBuys | trade_manager.py:56-86 | a whole aggressive trade, opening entry included, appends as many buys as active tranches, and at most 3 |
| TradeManager.AggressiveScenario | trade_manager.py:50-100 | entry 100 at 1% with 3 coins: 101 enters the second tranche, 102.01 the third, and 102 closes all three for a profit of 6 |
| TradeManager.AggressiveFloorCanFall | trade_manager.py:72-86 | an entry tick at 110 sets the floor to 110. The next entry at 103 lowers it to 103 |
| TradeManager.ManageDefaultTrade | trade_manager.py:24-46 | a default trade records no buy. A closed one has written exactly one sell, whose profit counts the whole position. It is closed no later than the first tick below the entry price |
| TradeManager.AggressiveTradeRecords | trade_manager.py:56-100 | the opening buy followed by a run's entries hold 1 to 3 buys. While open they are all buys. A closed trade is buys, then one sell whose profit counts every tranche bought |
| TradeManager.ManageAggressiveTrade | trade_manager.py:48-102 | an aggressive trade records 1 to 3 buys. A closed one has written buys only, then one sell whose profit counts every tranche bought. It is closed no later than the first tick below the entry price |
| TradeManager.ManageTrade | trade_manager.py:8-22 | the policy is the lower-cased mode's. The default trade records no buy. The aggressive one records 1 to 3. A close writes buys only and then one sell, whose profit counts the whole default position, or as many tranches as buys were recorded. Under either policy the trade is closed no later than the first tick below the entry price |
| Bot.NewBot | main.py:10-19 | the capital and profit target are stored as given. The stored mode is the mode lower-cased, has no upper-case letter and selects the same policy as the mode given |
| Bot.MarketValidation | main.py:40-69 | every successful poll updates the window. Trading starts at the first successful poll that makes it exactly 60 long, and the window then is the old one updated with the polled observations. Without a start, every observation was applied and the window is still short |
| Bot.StartIsExact | main.py:64-69 | the starting poll brings the polled observations to exactly what the stored window lacked; from the empty window, it is the 60th successful poll |
| Bot.WaitForNewData | main.py:86-115 | the wait as written ends only with a full window that it started empty. From any non-empty window it never ends |
| Bot.WaitForNewDataCounted | main.py:81-115 | the wait as intended completes exactly when 60 polls succeed. The window then holds exactly those 60 new observations |
| Bot.PerformActionTick | main.py:129-143 | the chain runs at level 1: it keeps exactly when the change is below 1, and every non-buy has level 0 and appends nothing. A buy appends the entry with the bot's mode. A trade opens exactly on a buy, which is exactly when `EntryAllowed` holds, at level 3. It uses the lower-cased mode's policy, the fetched buy price, the capital and the profit target |

## Left out

- Network access of `market.py` (`getPrice`, `changesof24h`, `makeReady`) is not part of this model. Their values are parameters: `Observation`, `Strategy.Live` and `TradeManager.Tick`.
- Storage (`database/db.py`: the SQLite market row, the JSON history file, `initialize_database`, `close_database`, `clear_database`) is not modelled. The window and the history are passed as values. The start-up `clear_database` corresponds to starting from the empty window.
- `ui.py`, `time.sleep`, the `is_running` flag and `print` are not modelled. Finite lists of polls stand for the polling loops, and the end of a list is the bot being stopped.
- The trade loops ignore the stop flag (`stop()` does not end an open trade). A finite tick stream only bounds how far a trade is observed. A trade that never closes is not modelled.
- `datetime.now()` is a `Timestamp` parameter.
- Floating-point rounding is not modelled: prices are exact reals. The `%.2f` text of the reason strings is kept as the number it formats.
- `risk_percentage` is stored by the source and never read.
- `performAction`'s own loop is not composed into one member. That loop repeats `PerformActionTick`, then `ManageTrade` on a buy, then the wait. Its `price_ranges` and `changes_range` arguments are never read by the source either.
- Exceptions raised by `getPrice` inside the chain or inside a trade loop are not modelled. They escape to `marketValidation`'s handler. An open position is then abandoned without a sell entry.
- Modes.Lower: lower-cases ASCII letters only, because Python's `str.lower` also maps non-ASCII letters.
- TradeManager.ManageTrade: it runs over a finite tick stream and reports "not closed" when the stream ends, because the source's loop only returns on a close.
- TradeManager.ManageDefaultTrade: the same finite tick stream as `ManageTrade`.
- TradeManager.ManageAggressiveTrade: the same finite tick stream as `ManageTrade`.
- TradeManager.RunDefault: requires a positive buy price, capital and profit percentage (`TradeParams.Valid`). The capital and profit are positive because ui.py:145-147 refuses to start the bot otherwise. The buy price is assumed positive because it comes from the price feed, and the source divides by it unchecked.
- TradeManager.RunAggressive: the same positivity requirement as `RunDefault`.

## Findings

| source | as written | input that shows it | evidently intended | confidence | as-written member | corrected member |
|---|---|---|---|---|---|---|
| main.py:90-93 | the wait records the current window length and polls until the length reaches that length plus 60, but the window never holds more than 60 | any non-empty stored window, such as the full 60-price window present when a trade closes: the wait then never ends while the bot runs | count the observations collected by this wait and stop at 60, as the docstring on line 83 says | high; not executed | Bot.WaitForNewData | Bot.WaitForNewDataCounted |

=== FILE: bot.dfy ===
/**
  `TradingBot` of main.py: the fill loop that gathers 60 observations, the
  wait loop run after a closed trade, and the hand-off from a buy signal to
  the trade manager. Sleeping, the running flag and the feed are left to the
  caller: a loop runs over a finite list of polls, and the end of the list
  stands for the bot being stopped.
 */
module Bot {
  import opened Ledger
  import opened Modes
  import opened PriceWindow
  import Strategy
  import TradeManager

  /** The settings `TradingBot.__init__` keeps; `risk_percentage` is stored by the source but never read. */
  datatype BotConfig = BotConfig(totalMoney: real, mode: string, targetProfit: real)

  /** `TradingBot.__init__`: the mode is lower-cased once, here. */
  function NewBot(totalMoney: real, mode: string, targetProfit: real): (b: BotConfig)
    ensures b.totalMoney == totalMoney && b.targetProfit == targetProfit
    ensures b.mode == Lower(mode)
    ensures SelectPolicy(b.mode) == SelectPolicy(mode)
    ensures forall i :: 0 <= i < |b.mode| ==> !('A' <= b.mode[i] <= 'Z')
  {
    PolicyOfNormalisedMode(mode);
    BotConfig(totalMoney, Lower(mode), targetProfit)
  }

  /** The observations of the polls that succeeded, in order; a failed poll is `None`. */
  function Successful(polls: seq<Option<Observation>>): (r: seq<Observation>)
    ensures |r| <= |polls|
  {
    if polls == [] then []
    else Successful(polls[..|polls| - 1]) + (if polls[|polls| - 1].Some? then [polls[|polls| - 1].value] else [])
  }

  lemma {:induction false} SuccessfulAppend(a: seq<Option<Observation>>, b: seq<Option<Observation>>)
    ensures Successful(a + b) == Successful(a) + Successful(b)
    decreases |b|
  {
    if b == [] {
      assert a + b == a;
    } else {
      SuccessfulAppend(a, b[..|b| - 1]);
      assert (a + b)[..|a + b| - 1] == a + b[..|b| - 1];
    }
  }

  /** The successful observations among the first i + 1 polls extend those among the first i by poll i's. */
  lemma SuccessfulStep(polls: seq<Option<Observation>>, i: nat)
    requires i < |polls|
    ensures polls[i].None? ==> Successful(polls[..i + 1]) == Successful(polls[..i])
    ensures polls[i].Some? ==> Successful(polls[..i + 1]) == Successful(polls[..i]) + [polls[i].value]
  {
    assert polls[..i + 1][..i] == polls[..i];
    if polls[i].None? {
      assert Successful(polls[..i]) + [] == Successful(polls[..i]);
    }
  }

  /**
    Before poll i the fill loop has not yet filled the window by polling:
    nothing was polled yet, or the polled observations together with the
    stored ones are still fewer than 60.
   */
  predicate NotFilled(w0: Window, polls: seq<Option<Observation>>, i: nat)
    requires i <= |polls|
  {
    |Successful(polls[..i])| == 0 || |w0.prices| + |Successful(polls[..i])| < Capacity
  }

  /**
    The fill loop's bookkeeping for one poll: a failed poll leaves the
    window as it is, a successful one is one more update, and a poll after
    which the window is still short of 60 leaves it not filled.
   */
  lemma FillProgress(w0: Window, polls: seq<Option<Observation>>, i: nat, w: Window)
    requires WellFormed(w0)
    requires i < |polls| && NotFilled(w0, polls, i)
    requires w == UpdateAll(w0, Successful(polls[..i]))
    ensures polls[i].None? ==> w == UpdateAll(w0, Successful(polls[..i + 1])) && NotFilled(w0, polls, i + 1)
    ensures polls[i].Some? ==>
      && Update(w, polls[i].value) == UpdateAll(w0, Successful(polls[..i + 1]))
      && (!Full(Update(w, polls[i].value)) ==> NotFilled(w0, polls, i + 1))
  {
    SuccessfulStep(polls, i);
    if polls[i].Some? {
      UpdateAllSnoc(w0, Successful(polls[..i]), polls[i].value);
    }
  }

  /**
    `marketValidation`: every successful poll updates the stored window,
    and trading starts at the first successful poll after which it holds
    exactly 60 prices; if that never happens, the window holds every
    polled observation and is still short.
   */
  method MarketValidation(w0: Window, polls: seq<Option<Observation>>) returns (w: Window, started: bool, at: nat)
    requires WellFormed(w0)
    ensures WellFormed(w)
    ensures started ==>
      && at < |polls|
      && polls[at].Some?
      && Full(w)
      && w == UpdateAll(w0, Successful(polls[..at + 1]))
      && NotFilled(w0, polls, at)
    ensures !started ==>
      && w == UpdateAll(w0, Successful(polls))
      && NotFilled(w0, polls, |polls|)
  {
    w := w0;
    started := false;
    at := 0;
    var i := 0;
    while i < |polls|
      invariant 0 <= i <= |polls|
      invariant w == UpdateAll(w0, Successful(polls[..i]))
      invariant NotFilled(w0, polls, i)
    {
      FillProgress(w0, polls, i, w);
      if polls[i].Some? {
        w := Update(w, polls[i].value);
        if Full(w) {
          started := true;
          at := i;
          return;
        }
      }
      i := i + 1;
    }
    assert polls[..|polls|] == polls;
  }

  /**
    The poll that starts trading brings the polled observations up to
    exactly what the stored window was missing, or is the first poll on a
    window that was already full; from the empty window cleared at start-up
    it is exactly the 60th successful poll.
   */
  lemma {:induction false} StartIsExact(w0: Window, polls: seq<Option<Observation>>, at: nat)
    requires WellFormed(w0)
    requires at < |polls| && polls[at].Some?
    requires Full(UpdateAll(w0, Successful(polls[..at + 1])))
    requires NotFilled(w0, polls, at)
    ensures |w0.prices| + |Successful(polls[..at + 1])| == Capacity || (Full(w0) && |Successful(polls[..at + 1])| == 1)
    ensures |w0.prices| == 0 ==> |Successful(polls[..at + 1])| == Capacity
  {
    SuccessfulStep(polls, at);
  }

  /**
    `wait_for_new_data` as written: it records the window length it starts
    from and polls until the length reaches that plus 60. A failed poll
    restarts the outer loop, which records the length afresh. Because the
    window never exceeds 60 entries, the wait can only end when it started
    from an empty window; from any non-empty window, such as the full one a
    closed trade leaves, it only ends when the bot is stopped.
   */
  method WaitForNewData(w0: Window, polls: seq<Option<Observation>>) returns (w: Window, done: bool)
    requires WellFormed(w0)
    ensures WellFormed(w)
    ensures done ==> Full(w) && |w0.prices| == 0
    ensures |w0.prices| > 0 ==> !done
    ensures |w0.prices| == 0 && |polls| >= Capacity && (forall j :: 0 <= j < Capacity ==> polls[j].Some?) ==> done
  {
    w := w0;
    var starting: nat := |w.prices|;
    var i := 0;
    done := false;
    while i < |polls| && !done
      invariant 0 <= i <= |polls|
      invariant WellFormed(w)
      invariant |w.prices| >= |w0.prices|
      invariant |w0.prices| > 0 ==> starting > 0
      invariant done <==> |w.prices| >= starting + Capacity
      invariant |w0.prices| == 0 && |polls| >= Capacity && (forall j :: 0 <= j < Capacity ==> polls[j].Some?)
        ==> i <= Capacity && starting == 0 && |w.prices| == i
    {
      match polls[i] {
        case None =>
          starting := |w.prices|;
        case Some(o) =>
          w := Update(w, o);
      }
      i := i + 1;
      done := |w.prices| >= starting + Capacity;
    }
  }

  /**
    The wait the docstring describes: count the observations this wait has
    collected and stop at 60. It completes exactly when 60 polls succeed,
    and the window then holds those 60 new observations and nothing older.
   */
  method WaitForNewDataCounted(w0: Window, polls: seq<Option<Observation>>) returns (w: Window, done: bool)
    requires WellFormed(w0)
    ensures WellFormed(w)
    ensures done <==> |Successful(polls)| >= Capacity
    ensures done ==>
      && w.prices == PricesOf(Successful(polls)[..Capacity])
      && w.changes == ChangesOf(Successful(polls)[..Capacity])
  {
    w := w0;
    var collected := 0;
    var i := 0;
    while i < |polls| && collected < Capacity
      invariant 0 <= i <= |polls|
      invariant collected == |Successful(polls[..i])| <= Capacity
      invariant w == UpdateAll(w0, Successful(polls[..i]))
    {
      SuccessfulStep(polls, i);
      match polls[i] {
        case None =>
        case Some(o) =>
          UpdateAllSnoc(w0, Successful(polls[..i]), o);
          w := Update(w, o);
          collected := collected + 1;
      }
      i := i + 1;
    }
    done := collected == Capacity;
    SuccessfulAppend(polls[..i], polls[i..]);
    assert polls[..i] + polls[i..] == polls;
    if done {
      var newObs := Successful(polls[..i]);
      assert newObs == Successful(polls)[..Capacity];
      FullRefresh(w0, newObs);
      assert newObs[|newObs| - Capacity..] == newObs;
    }
  }

  /** What one pass of `performAction` decides: the strategy's evaluation and, on a buy, the trade to open. */
  datatype ActionTick = ActionTick(evaluation: Strategy.Evaluation, trade: Option<(Policy, TradeManager.TradeParams)>)

  /**
    One pass of `performAction`: the chain is asked at entry level 1; on a
    buy (which then carries level 3) a trade is opened at the freshly
    fetched `buyPrice` with the bot's capital, mode and profit target.
   */
  function PerformActionTick(bot: BotConfig, coin: string, live: Strategy.Live, market: Option<seq<real>>, history: seq<Record>, today: Date, now: Timestamp, buyPrice: real): (r: ActionTick)
    ensures r.trade.Some? <==> r.evaluation.signal == Strategy.BuySignal
    ensures r.trade.Some? <==> Strategy.EntryAllowed(coin, live, market, history, today)
    ensures r.evaluation.signal == Strategy.KeepSignal <==> live.change24h < Strategy.MinMomentum
    ensures r.evaluation.signal == Strategy.BuySignal ==>
      && r.evaluation.level == 3
      && r.evaluation.appended == [Strategy.EntryRecord(coin, live, now, bot.mode)]
    ensures r.evaluation.signal != Strategy.BuySignal ==> r.evaluation.level == 0 && r.evaluation.appended == []
    ensures r.trade.Some? ==>
      && r.trade.value.0 == SelectPolicy(bot.mode)
      && r.trade.value.1 == TradeManager.TradeParams(coin, buyPrice, bot.totalMoney, bot.targetProfit)
  {
    var e := Strategy.MomentumBasedEntrySignal(coin, 1, live, market, history, today, now, bot.mode);
    if e.signal == Strategy.BuySignal then
      ActionTick(e, Some((SelectPolicy(bot.mode), TradeManager.TradeParams(coin, buyPrice, bot.totalMoney, bot.targetProfit))))
    else
      ActionTick(e, None)
  }
}

=== FILE: ledger.dfy ===
/**
  The trade history file: a list of JSON objects, one per decision, that
  `record_trade` appends to and `history_check` scans.
 */
module Ledger {
  /** A value that may be absent: a failed poll, a missing market row, an absent JSON key. */
  datatype Option<+T> = None | Some(value: T)

  /** A calendar date, compared the way `datetime.date` compares: field by field. */
  datatype Date = Date(year: int, month: int, day: int)

  /** A point in time; only its date is ever read by a decision. */
  datatype Timestamp = Timestamp(date: Date, micros: nat)

  /** The `"action"` field: `"buy"` or `"sell"`. */
  datatype Action = Buy | Sell

  /** The `"reason"` field, kept as the data it is formatted from. */
  datatype Reason =
    | EntryWithMode(mode: string)
    | DefaultModeProfit(profit: real)
    | AggressiveFirstEntry
    | AggressiveSecondEntry
    | AggressiveFinalEntry
    | AggressiveModeProfit(profit: real)

  /**
    One history entry. `signal` is the optional `"signal"` key that the
    throttle reads with `trade.get("signal")`; entries written by the bot
    itself never carry it.
   */
  datatype Record = Record(at: Timestamp, coin: string, action: Action, price: real, reason: Reason, signal: Option<string>)

  /** The entry `record_trade` appends: the four given fields plus a timestamp, and no signal key. */
  function RecordTrade(at: Timestamp, coin: string, action: Action, price: real, reason: Reason): (r: Record)
    ensures r.signal.None?
    ensures r.at == at && r.coin == coin && r.action == action && r.price == price && r.reason == reason
  {
    Record(at, coin, action, price, reason, None)
  }

  /** The throttle's test for one entry: same coin, signal "reject", dated today. */
  predicate IsRejectToday(r: Record, coin: string, today: Date)
  {
    r.coin == coin && r.signal == Some("reject") && r.at.date == today
  }

  /** The number of entries of `history` that the throttle counts. */
  function RejectsToday(history: seq<Record>, coin: string, today: Date): (n: nat)
    ensures n <= |history|
    ensures n == 0 <==> forall i :: 0 <= i < |history| ==> !IsRejectToday(history[i], coin, today)
    ensures n == |history| <==> forall i :: 0 <= i < |history| ==> IsRejectToday(history[i], coin, today)
  {
    if history == [] then 0
    else
      var init := history[..|history| - 1];
      var n0 := RejectsToday(init, coin, today);
      assert forall i :: 0 <= i < |init| ==> init[i] == history[i];
      n0 + (if IsRejectToday(history[|history| - 1], coin, today) then 1 else 0)
  }

  /** Counting distributes over concatenation of histories. */
  lemma {:induction false} RejectsTodayAppend(a: seq<Record>, b: seq<Record>, coin: string, today: Date)
    ensures RejectsToday(a + b, coin, today) == RejectsToday(a, coin, today) + RejectsToday(b, coin, today)
    decreases |b|
  {
    if b == [] {
      assert a + b == a;
    } else {
      var init := b[..|b| - 1];
      RejectsTodayAppend(a, init, coin, today);
      assert (a + b)[..|a + b| - 1] == a + init;
      assert (a + b)[|a + b| - 1] == b[|b| - 1];
    }
  }

  /**
    Entries without a "reject" signal, which includes every entry the bot
    writes through `record_trade`, never move the throttle's count.
   */
  lemma {:induction false} UnsignalledRecordsNeverCounted(history: seq<Record>, appended: seq<Record>, coin: string, today: Date)
    requires forall i :: 0 <= i < |appended| ==> appended[i].signal.None?
    ensures RejectsToday(history + appended, coin, today) == RejectsToday(history, coin, today)
  {
    RejectsTodayAppend(history, appended, coin, today);
    assert forall i :: 0 <= i < |appended| ==> !IsRejectToday(appended[i], coin, today);
  }

  /**
    `record_trade` appends one entry that the throttle never counts: the
    reject count of every coin on every day is the same after the append.
   */
  lemma RecordTradeNeverCounted(history: seq<Record>, at: Timestamp, coin: string, action: Action, price: real, reason: Reason, c: string, d: Date)
    ensures RejectsToday(history + [RecordTrade(at, coin, action, price, reason)], c, d) == RejectsToday(history, c, d)
  {
    UnsignalledRecordsNeverCounted(history, [RecordTrade(at, coin, action, price, reason)], c, d);
  }
}

=== FILE: modes.dfy ===
/** The trading-mode string and the policy it selects. */
module Modes {

  /** The two position-management policies of the trade manager. */
  datatype Policy = DefaultPolicy | AggressivePolicy

  /** `str.lower()` on one character, restricted to ASCII letters. */
  function LowerChar(c: char): (r: char)
    ensures 'A' <= c <= 'Z' ==> 'a' <= r <= 'z' && r as int - c as int == 32
    ensures !('A' <= c <= 'Z') ==> r == c
  {
    if 'A' <= c <= 'Z' then (c as int + 32) as char else c
  }

  /** `str.lower()`, restricted to ASCII letters. */
  function Lower(s: string): (r: string)
    ensures |r| == |s|
    ensures forall i :: 0 <= i < |r| ==> !('A' <= r[i] <= 'Z')
    ensures forall i :: 0 <= i < |s| && 'A' <= s[i] <= 'Z' ==> r[i] as int == s[i] as int + 32
    ensures forall i :: 0 <= i < |s| && !('A' <= s[i] <= 'Z') ==> r[i] == s[i]
  {
    seq(|s|, i requires 0 <= i < |s| => LowerChar(s[i]))
  }

  /** Lower-casing twice is lower-casing once. */
  lemma LowerIdempotent(s: string)
    ensures Lower(Lower(s)) == Lower(s)
  {
    var l := Lower(s);
    assert forall i :: 0 <= i < |l| ==> Lower(l)[i] == l[i];
  }

  /** The dispatch of `manage_trade`: only "aggressive", in any letter case, selects the staged policy. */
  function SelectPolicy(mode: string): (p: Policy)
  {
    if Lower(mode) == "aggressive" then AggressivePolicy else DefaultPolicy
  }

  /**
    The bot lower-cases its mode once when built and `manage_trade`
    lower-cases it again; the second pass selects the same policy as the
    first would have.
   */
  lemma PolicyOfNormalisedMode(mode: string)
    ensures SelectPolicy(Lower(mode)) == SelectPolicy(mode)
  {
    LowerIdempotent(mode);
  }

  /** Any string selecting the staged policy is ten characters, each lower-casing to "aggressive". */
  lemma AggressiveModeSpelling(mode: string)
    requires SelectPolicy(mode) == AggressivePolicy
    ensures |mode| == 10
    ensures forall i :: 0 <= i < 10 ==> LowerChar(mode[i]) == "aggressive"[i]
  {
    assert Lower(mode) == "aggressive";
    assert forall i :: 0 <= i < 10 ==> Lower(mode)[i] == LowerChar(mode[i]);
  }

  /** The two labels the front end offers map to the two policies. */
  lemma FrontEndLabels()
    ensures SelectPolicy("Aggressive") == AggressivePolicy
    ensures SelectPolicy("AGGRESSIVE") == AggressivePolicy
    ensures SelectPolicy("Default") == DefaultPolicy
    ensures SelectPolicy("aggressive ") == DefaultPolicy
  {
    assert Lower("Aggressive") == "aggressive";
    assert Lower("AGGRESSIVE") == "aggressive";
  }
}

=== FILE: strategy.dfy ===
/**
  The entry-signal filter chain of `TradingStrategy`: momentum, then data
  sufficiency and trend, then the daily reject throttle. Each stage either
  stops the chain or passes to the next with the entry level raised by one.
 */
module Strategy {
  import opened Ledger
  import PriceWindow

  /** The 24h change, in percent, from which momentum counts as positive. */
  const MinMomentum: real := 1.0

  /** The number of counted rejects today at which the throttle stops buying. */
  const MaxRejectsPerDay: nat := 3

  /** The `"buy"`, `"keep"` and `"reject"` signals. */
  datatype Signal = BuySignal | KeepSignal | RejectSignal

  /**
    What the chain reads from the feed. Each field is a separate fetch in
    the source: the 24h change, the price compared with the average, and
    the price written into the buy entry.
   */
  datatype Live = Live(change24h: real, trendPrice: real, entryPrice: real)

  /** The `(signal, level)` pair the chain returns, and the entries it appended to the history. */
  datatype Evaluation = Evaluation(signal: Signal, level: int, appended: seq<Record>)

  /** Python's `sum` over a list of prices, added from the front. */
  function Sum(xs: seq<real>): real
  {
    if xs == [] then 0.0 else Sum(xs[..|xs| - 1]) + xs[|xs| - 1]
  }

  /** `sum(price_ranges) / len(price_ranges)`. */
  function Average(xs: seq<real>): real
    requires |xs| > 0
  {
    Sum(xs) / (|xs| as real)
  }

  /** The trend test, stated without division: the average is below p exactly when the sum is below n times p. */
  lemma AverageBelowIff(xs: seq<real>, p: real)
    requires |xs| > 0
    ensures Average(xs) < p <==> Sum(xs) < p * (|xs| as real)
  {
    var n := |xs| as real;
    assert Average(xs) * n == Sum(xs);
    if Average(xs) < p {
      assert Average(xs) * n < p * n;
    } else {
      assert Average(xs) * n >= p * n;
    }
  }

  /** The sum of n copies of one price is n times that price. */
  lemma {:induction false} SumConstant(xs: seq<real>, v: real)
    requires forall i :: 0 <= i < |xs| ==> xs[i] == v
    ensures Sum(xs) == (|xs| as real) * v
    decreases |xs|
  {
    if xs != [] {
      SumConstant(xs[..|xs| - 1], v);
    }
  }

  /**
    When a buy is due, independently of how the chain is built: momentum
    at least 1, a stored market with at least 60 prices whose average is
    strictly below the trend price, and fewer than 3 rejects today.
   */
  predicate EntryAllowed(coin: string, live: Live, market: Option<seq<real>>, history: seq<Record>, today: Date)
  {
    && live.change24h >= MinMomentum
    && market.Some?
    && |market.value| >= PriceWindow.Capacity
    && Sum(market.value) < live.trendPrice * (|market.value| as real)
    && RejectsToday(history, coin, today) < MaxRejectsPerDay
  }

  /** The buy entry the chain appends: the entry price, the coin and the active mode. */
  function EntryRecord(coin: string, live: Live, now: Timestamp, mode: string): Record
  {
    RecordTrade(now, coin, Buy, live.entryPrice, EntryWithMode(mode))
  }

  /**
    `history_check`: the daily throttle. It rejects once 3 entries for the
    coin carry signal "reject" and today's date; otherwise it appends the
    buy entry and returns a buy at the level it was given.
   */
  function HistoryCheck(coin: string, level: int, live: Live, history: seq<Record>, today: Date, now: Timestamp, mode: string): (r: Evaluation)
    ensures r.signal != KeepSignal
    ensures r.signal == BuySignal <==> RejectsToday(history, coin, today) < MaxRejectsPerDay
    ensures r.signal == BuySignal ==> r.level == level && r.appended == [EntryRecord(coin, live, now, mode)]
    ensures r.signal == RejectSignal ==> r.level == 0 && r.appended == []
  {
    if RejectsToday(history, coin, today) >= MaxRejectsPerDay then Evaluation(RejectSignal, 0, [])
    else Evaluation(BuySignal, level, [EntryRecord(coin, live, now, mode)])
  }

  /**
    `safe_filter_buying`: rejects an absent market, fewer than 60 stored
    prices, or an average not strictly below the trend price; otherwise
    runs the throttle one level deeper.
   */
  function SafeFilterBuying(coin: string, level: int, live: Live, market: Option<seq<real>>, history: seq<Record>, today: Date, now: Timestamp, mode: string): (r: Evaluation)
    ensures r.signal != KeepSignal
    ensures market.None? ==> r == Evaluation(RejectSignal, 0, [])
    ensures market.Some? && |market.value| < PriceWindow.Capacity ==> r == Evaluation(RejectSignal, 0, [])
    ensures market.Some? && |market.value| >= PriceWindow.Capacity && Average(market.value) >= live.trendPrice
            ==> r == Evaluation(RejectSignal, 0, [])
    ensures r.signal == BuySignal <==>
      && market.Some?
      && |market.value| >= PriceWindow.Capacity
      && Average(market.value) < live.trendPrice
      && RejectsToday(history, coin, today) < MaxRejectsPerDay
    ensures r.signal == BuySignal ==> r.level == level + 1 && r.appended == [EntryRecord(coin, live, now, mode)]
    ensures r.signal == RejectSignal ==> r.level == 0 && r.appended == []
  {
    match market
    case None => Evaluation(RejectSignal, 0, [])
    case Some(prices) =>
      if |prices| < PriceWindow.Capacity then Evaluation(RejectSignal, 0, [])
      else if Average(prices) < live.trendPrice then HistoryCheck(coin, level + 1, live, history, today, now, mode)
      else Evaluation(RejectSignal, 0, [])
  }

  /**
    `momentum_based_entry_signal`: the whole chain. Below 1% momentum it
    keeps, whatever the window or the history hold; a buy happens exactly
    when `EntryAllowed`, comes two levels above the input level and appends
    one buy entry; every other outcome has level 0 and appends nothing.
   */
  function MomentumBasedEntrySignal(coin: string, level: int, live: Live, market: Option<seq<real>>, history: seq<Record>, today: Date, now: Timestamp, mode: string): (r: Evaluation)
    ensures live.change24h < MinMomentum ==> r == Evaluation(KeepSignal, 0, [])
    ensures r.signal == KeepSignal <==> live.change24h < MinMomentum
    ensures r.signal == BuySignal <==> EntryAllowed(coin, live, market, history, today)
    ensures r.signal == BuySignal ==> r.level == level + 2 && r.appended == [EntryRecord(coin, live, now, mode)]
    ensures r.signal != BuySignal ==> r.level == 0 && r.appended == []
  {
    if live.change24h >= MinMomentum then
      var r := SafeFilterBuying(coin, level + 1, live, market, history, today, now, mode);
      assert market.Some? && |market.value| >= PriceWindow.Capacity ==>
        (Average(market.value) < live.trendPrice <==> Sum(market.value) < live.trendPrice * (|market.value| as real))
      by {
        if market.Some? && |market.value| >= PriceWindow.Capacity {
          AverageBelowIff(market.value, live.trendPrice);
        }
      }
      r
    else
      Evaluation(KeepSignal, 0, [])
  }

  /** The chain appends only entries that the throttle will never count. */
  lemma ChainNeverFeedsThrottle(coin: string, level: int, live: Live, market: Option<seq<real>>, history: seq<Record>, today: Date, now: Timestamp, mode: string, other: string)
    ensures var r := MomentumBasedEntrySignal(coin, level, live, market, history, today, now, mode);
      RejectsToday(history + r.appended, other, today) == RejectsToday(history, other, today)
  {
    var r := MomentumBasedEntrySignal(coin, level, live, market, history, today, now, mode);
    UnsignalledRecordsNeverCounted(history, r.appended, other, today);
  }

  /**
    A full window of 60 prices at 50, a live price of 55 and a 2% change
    give a buy, as long as fewer than 3 rejects are recorded today.
   */
  lemma ConstantWindowThenRise(history: seq<Record>, today: Date, now: Timestamp, mode: string)
    requires RejectsToday(history, "bitcoin", today) < MaxRejectsPerDay
    ensures MomentumBasedEntrySignal("bitcoin", 1, Live(2.0, 55.0, 55.0), Some(seq(60, _ => 50.0)), history, today, now, mode).signal == BuySignal
  {
    var prices := seq(60, _ => 50.0);
    SumConstant(prices, 50.0);
  }
}

=== FILE: trade.dfy ===
/**
  The trade manager: after a buy, one open position is watched tick by
  tick until it is closed. Each `while True` loop of the source is a pure
  step function here, and a run folds the step over a finite tick stream.
  The loops never read the bot's running flag, so the end of a stream is
  only where observation stops, not a stop of the trade.
 */
module TradeManager {
  import opened Ledger
  import opened Modes

  /** The arguments of `manage_trade`. */
  datatype TradeParams = TradeParams(coin: string, buyPrice: real, totalMoney: real, profitPercent: real)

  /** Positive entry price, capital and profit percentage. */
  predicate Valid(p: TradeParams)
  {
    p.buyPrice > 0.0 && p.totalMoney > 0.0 && p.profitPercent > 0.0
  }

  /** The factor `1 + profit_percent / 100` each target is raised by. */
  function Growth(p: TradeParams): real
  {
    1.0 + p.profitPercent / 100.0
  }

  /** A price raised by one growth step: `x * (1 + profit_percent / 100)`. */
  function Raise(p: TradeParams, x: real): real
  {
    x * Growth(p)
  }

  /** With a positive profit percentage, raising a positive price makes it strictly larger. */
  lemma RaiseGrows(p: TradeParams, x: real)
    requires Valid(p) && x > 0.0
    ensures Raise(p, x) > x
  {
    assert x * Growth(p) > x * 1.0;
  }

  /** One poll of `getPrice` inside the trade loop, with the time its entry would be stamped. */
  datatype Tick = Tick(price: real, at: Timestamp)

  /** What one tick decides: keep watching, or the position was closed with this profit. */
  datatype Outcome = Continue | Closed(profit: real)

  /** A step or a run: the state after it, its outcome, and the history entries it appended. */
  datatype Step<S> = Step(state: S, outcome: Outcome, records: seq<Record>)

  /** A run over a tick stream also reports how many ticks it consumed. */
  datatype Run<S> = Run(state: S, outcome: Outcome, records: seq<Record>, used: nat)

  /** The last of a non-empty run of entries. */
  function Last(rs: seq<Record>): Record
    requires rs != []
  {
    rs[|rs| - 1]
  }

  /** Every entry of the run is a buy. */
  predicate AllBuys(rs: seq<Record>)
  {
    forall i :: 0 <= i < |rs| ==> rs[i].action == Buy
  }

  /** Appending entries keeps the last one of the appended part last, and buys followed by buys are all buys. */
  lemma AppendRecords(a: seq<Record>, b: seq<Record>)
    ensures b != [] ==> Last(a + b) == Last(b)
    ensures AllBuys(a) && AllBuys(b) ==> AllBuys(a + b)
  {
  }

  /** Dropping the last entry of an appended run drops it from the appended part. */
  lemma DropLastAppend(a: seq<Record>, b: seq<Record>)
    requires b != []
    ensures (a + b)[..|a + b| - 1] == a + b[..|b| - 1]
  {
  }

  /** Buys followed by a run that is buys up to its last entry are buys up to the last entry. */
  lemma BuysBeforeLast(a: seq<Record>, b: seq<Record>)
    requires AllBuys(a) && b != [] && AllBuys(b[..|b| - 1])
    ensures AllBuys((a + b)[..|a + b| - 1])
  {
    DropLastAppend(a, b);
    AppendRecords(a, b[..|b| - 1]);
  }

  /** The number of buy entries among some appended entries. */
  function CountBuys(rs: seq<Record>): (n: nat)
    ensures n <= |rs|
  {
    if rs == [] then 0 else CountBuys(rs[..|rs| - 1]) + (if rs[|rs| - 1].action == Buy then 1 else 0)
  }

  lemma {:induction false} CountBuysAppend(a: seq<Record>, b: seq<Record>)
    ensures CountBuys(a + b) == CountBuys(a) + CountBuys(b)
    decreases |b|
  {
    if b == [] {
      assert a + b == a;
    } else {
      CountBuysAppend(a, b[..|b| - 1]);
      assert (a + b)[..|a + b| - 1] == a + b[..|b| - 1];
    }
  }

  // ---------------------------------------------------------------------
  // Default mode: one position, a profit target and a trailing floor.
  // ---------------------------------------------------------------------

  /** `target_price` and `last_profit_target` of `manage_default_trade`. */
  datatype DefaultState = DefaultState(target: real, floor: real)

  /** `position_size`: the coins bought with all the capital. */
  function PositionSize(p: TradeParams): real
    requires Valid(p)
  {
    p.totalMoney / p.buyPrice
  }

  /** The profit of selling the whole position at price c: `(current_price - buy_price) * position_size`. */
  function DefaultExitProfit(p: TradeParams, c: real): real
    requires Valid(p)
  {
    (c - p.buyPrice) * PositionSize(p)
  }

  /** The invariant of the default loop: the target is one growth step above the floor, and the floor is at least the entry price. */
  predicate DefaultInv(p: TradeParams, s: DefaultState)
  {
    s.target == Raise(p, s.floor) && s.floor >= p.buyPrice
  }

  /** The state on entry: the floor at the entry price, the target one growth step above it. */
  function OpenDefault(p: TradeParams): (s: DefaultState)
    requires Valid(p)
    ensures DefaultInv(p, s) && s.floor == p.buyPrice
  {
    DefaultState(Raise(p, p.buyPrice), p.buyPrice)
  }

  /** `manage_default_trade`'s loop body for one price. */
  function DefaultStep(p: TradeParams, s: DefaultState, t: Tick): (r: Step<DefaultState>)
    requires Valid(p) && DefaultInv(p, s)
    ensures DefaultInv(p, r.state)
    ensures r.state.floor >= s.floor && r.state.target >= s.target
    ensures t.price >= s.target ==> r.outcome == Continue && r.records == [] && r.state.floor == s.target
    ensures r.outcome.Closed? <==> t.price < s.floor
    ensures r.outcome.Closed? ==>
      && r.state == s
      && r.outcome.profit == DefaultExitProfit(p, t.price)
      && r.records == [RecordTrade(t.at, p.coin, Sell, t.price, DefaultModeProfit(r.outcome.profit))]
    ensures r.outcome.Continue? ==> r.records == []
    ensures t.price < s.target ==> r.state == s
  {
    RaiseGrows(p, s.floor);
    if t.price >= s.target then
      RaiseGrows(p, s.target);
      Step(DefaultState(Raise(p, s.target), s.target), Continue, [])
    else if t.price < s.floor then
      var profit := DefaultExitProfit(p, t.price);
      Step(s, Closed(profit), [RecordTrade(t.at, p.coin, Sell, t.price, DefaultModeProfit(profit))])
    else
      Step(s, Continue, [])
  }

  /**
    The default loop over a tick stream, up to and including the tick that
    closes the position. A run that does not close appends nothing; one that
    closes appends exactly one sell entry, at a price strictly below the
    floor reached, with the exit-profit formula of the source. The run
    closes no later than the first tick below the starting floor, and a
    consumed tick at the starting target ratchets the floor up to it, while
    without such a tick floor and target stay where they were.
   */
  function RunDefault(p: TradeParams, s: DefaultState, ticks: seq<Tick>): (r: Run<DefaultState>)
    requires Valid(p) && DefaultInv(p, s)
    ensures DefaultInv(p, r.state) && r.state.floor >= s.floor
    ensures r.used <= |ticks|
    ensures r.outcome.Continue? ==> r.records == [] && r.used == |ticks|
    ensures r.outcome.Closed? ==>
      && 1 <= r.used
      && |r.records| == 1
      && r.records[0].action == Sell
      && r.records[0].price < r.state.floor
      && r.outcome.profit == DefaultExitProfit(p, r.records[0].price)
    ensures forall i :: 0 <= i < |ticks| && ticks[i].price < s.floor ==> r.outcome.Closed? && r.used <= i + 1
    ensures forall i :: 0 <= i < r.used && ticks[i].price >= s.target ==> r.state.floor >= s.target
    ensures (forall i :: 0 <= i < r.used ==> ticks[i].price < s.target) ==> r.state == s
    decreases |ticks|
  {
    if ticks == [] then Run(s, Continue, [], 0)
    else
      var st := DefaultStep(p, s, ticks[0]);
      if st.outcome.Closed? then Run(st.state, st.outcome, st.records, 1)
      else
        var rest := RunDefault(p, st.state, ticks[1..]);
        assert forall i :: 1 <= i < |ticks| ==> ticks[i] == ticks[1..][i - 1];
        Run(rest.state, rest.outcome, rest.records, rest.used + 1)
  }

  /** A closing default run sells at the price of the last tick it consumed. */
  lemma {:induction false} RunDefaultClosesAtLastTick(p: TradeParams, s: DefaultState, ticks: seq<Tick>)
    requires Valid(p) && DefaultInv(p, s)
    ensures var r := RunDefault(p, s, ticks);
      r.outcome.Closed? ==> r.records[0].price == ticks[r.used - 1].price
    decreases |ticks|
  {
    if ticks != [] {
      var st := DefaultStep(p, s, ticks[0]);
      if st.outcome.Continue? {
        RunDefaultClosesAtLastTick(p, st.state, ticks[1..]);
        var rest := RunDefault(p, st.state, ticks[1..]);
        if rest.outcome.Closed? {
          assert ticks[rest.used] == ticks[1..][rest.used - 1];
        }
      }
    }
  }

  /** Closing before any ratchet, the floor is still the entry price and the trade is a loss. */
  lemma DefaultExitWithoutRatchetLoses(p: TradeParams, ticks: seq<Tick>)
    requires Valid(p)
    requires RunDefault(p, OpenDefault(p), ticks).outcome.Closed?
    requires RunDefault(p, OpenDefault(p), ticks).state.floor == p.buyPrice
    ensures RunDefault(p, OpenDefault(p), ticks).outcome.profit < 0.0
  {
    var r := RunDefault(p, OpenDefault(p), ticks);
    DefaultExitProfitSign(p, r.records[0].price);
  }

  /** Selling the default position loses money exactly when the price is below the entry price. */
  lemma DefaultExitProfitSign(p: TradeParams, c: real)
    requires Valid(p)
    ensures DefaultExitProfit(p, c) < 0.0 <==> c < p.buyPrice
    ensures DefaultExitProfit(p, c) == 0.0 <==> c == p.buyPrice
  {
    var size := PositionSize(p);
    assert size > 0.0;
    if c < p.buyPrice {
      assert (c - p.buyPrice) * size < 0.0 * size;
    } else if c > p.buyPrice {
      assert (c - p.buyPrice) * size > 0.0 * size;
    }
  }

  /**
    The ratchet scenario: entry 100, 1% target, capital
    1000. Prices 100, 101, 99.9: the second tick ratchets the floor to 101
    and the target to 102.01, the third closes at a loss of 1.
   */
  lemma DefaultRatchetScenario()
    ensures var p := TradeParams("bitcoin", 100.0, 1000.0, 1.0);
      var at := Timestamp(Date(2025, 1, 1), 0);
      var r := RunDefault(p, OpenDefault(p), [Tick(100.0, at), Tick(101.0, at), Tick(99.9, at)]);
      r.used == 3 && r.state == DefaultState(102.01, 101.0) && r.outcome == Closed(-1.0)
  {
    var p := TradeParams("bitcoin", 100.0, 1000.0, 1.0);
    var at := Timestamp(Date(2025, 1, 1), 0);
    var ticks := [Tick(100.0, at), Tick(101.0, at), Tick(99.9, at)];
    var s0 := OpenDefault(p);
    assert s0 == DefaultState(101.0, 100.0);
    var s1 := DefaultStep(p, s0, ticks[0]);
    assert s1.state == s0 && s1.outcome == Continue;
    var s2 := DefaultStep(p, s1.state, ticks[1]);
    assert s2.state == DefaultState(102.01, 101.0);
    var s3 := DefaultStep(p, s2.state, ticks[2]);
    assert s3.outcome == Closed(-1.0);
    assert ticks[1..][1..] == [ticks[2]];
    assert ticks[1..][1..][1..] == [];
    var r2 := RunDefault(p, s2.state, [ticks[2]]);
    assert r2.used == 1 && r2.state == s2.state && r2.outcome == Closed(-1.0);
    var r1 := RunDefault(p, s1.state, ticks[1..]);
    assert r1.used == 2 && r1.state == s2.state && r1.outcome == Closed(-1.0);
  }

  // ---------------------------------------------------------------------
  // Aggressive mode: three equal tranches, the first bought on opening and
  // the other two at the first two targets.
  // ---------------------------------------------------------------------

  /** One entry of the `positions` dictionary. */
  datatype Tranche = Tranche(size: real, active: bool)

  /** `positions`, `current_target` and `last_profit_target` of `manage_aggressive_trade`. */
  datatype AggressiveState = AggressiveState(first: Tranche, second: Tranche, third: Tranche, target: real, floor: real)

  /** `initial_target`, `second_target` and `final_target`. */
  function Target1(p: TradeParams): real { Raise(p, p.buyPrice) }
  function Target2(p: TradeParams): real { Raise(p, Target1(p)) }
  function Target3(p: TradeParams): real { Raise(p, Target2(p)) }

  /** With a positive profit percentage the three targets climb strictly above the entry price. */
  lemma TargetsAscend(p: TradeParams)
    requires Valid(p)
    ensures p.buyPrice < Target1(p) < Target2(p) < Target3(p)
  {
    RaiseGrows(p, p.buyPrice);
    RaiseGrows(p, Target1(p));
    RaiseGrows(p, Target2(p));
  }

  /** `coin_per_entry`: a third of the coins the whole capital buys at the entry price. */
  function CoinPerEntry(p: TradeParams): real
    requires Valid(p)
  {
    (p.totalMoney / p.buyPrice) / 3.0
  }

  /** The profit of selling n tranches at price c, all valued at the initial entry price. */
  function AggressiveExitProfit(p: TradeParams, c: real, n: nat): real
    requires Valid(p)
  {
    (c - p.buyPrice) * ((n as real) * CoinPerEntry(p))
  }

  /** The number of active tranches. */
  function ActiveCount(s: AggressiveState): nat
  {
    (if s.first.active then 1 else 0) + (if s.second.active then 1 else 0) + (if s.third.active then 1 else 0)
  }

  /** `sum(p["size"] for p in positions.values() if p["active"])`. */
  function ActiveSize(s: AggressiveState): real
  {
    (if s.first.active then s.first.size else 0.0)
    + (if s.second.active then s.second.size else 0.0)
    + (if s.third.active then s.third.size else 0.0)
  }

  /** `any(p["active"] for p in positions.values())`. */
  predicate AnyActive(s: AggressiveState)
  {
    s.first.active || s.second.active || s.third.active
  }

  /**
    The invariant of the aggressive loop: the first tranche is always
    active, tranches activate in order, all have the same size, and the
    target is the one the stage reached says it is.
   */
  predicate AggressiveInv(p: TradeParams, s: AggressiveState)
    requires Valid(p)
  {
    && s.first.active
    && (s.third.active ==> s.second.active)
    && s.first.size == CoinPerEntry(p) && s.second.size == CoinPerEntry(p) && s.third.size == CoinPerEntry(p)
    && (!s.second.active ==> s.target == Target1(p) && s.floor == p.buyPrice)
    && (s.second.active && !s.third.active ==> s.target == Target2(p) && s.floor >= Target1(p))
    && (s.third.active ==> s.target >= Target3(p) && s.floor >= Target2(p))
  }

  /** Under the invariant the `any(active)` exit guard always holds and the active size is a whole number of tranches. */
  lemma ActiveTranches(p: TradeParams, s: AggressiveState)
    requires Valid(p) && AggressiveInv(p, s)
    ensures AnyActive(s)
    ensures 1 <= ActiveCount(s) <= 3
    ensures ActiveSize(s) == (ActiveCount(s) as real) * CoinPerEntry(p)
  {
  }

  /**
    Opening an aggressive trade: only the first tranche active, target at
    the first target, floor at the entry price, and one buy entry for the
    first tranche at the entry price.
   */
  function OpenAggressive(p: TradeParams, at: Timestamp): (r: (AggressiveState, seq<Record>))
    requires Valid(p)
    ensures AggressiveInv(p, r.0) && ActiveCount(r.0) == 1
    ensures r.0.target == Target1(p) && r.0.floor == p.buyPrice
    ensures r.1 == [RecordTrade(at, p.coin, Buy, p.buyPrice, AggressiveFirstEntry)]
  {
    var size := CoinPerEntry(p);
    (AggressiveState(Tranche(size, true), Tranche(size, false), Tranche(size, false), Target1(p), p.buyPrice),
     [RecordTrade(at, p.coin, Buy, p.buyPrice, AggressiveFirstEntry)])
  }

  /** `manage_aggressive_trade`'s loop body for one price. */
  function AggressiveStep(p: TradeParams, s: AggressiveState, t: Tick): (r: Step<AggressiveState>)
    requires Valid(p) && AggressiveInv(p, s)
    ensures AggressiveInv(p, r.state)
    ensures r.state.first == s.first
    ensures s.second.active ==> r.state.second.active
    ensures s.third.active ==> r.state.third.active
    ensures CountBuys(r.records) == ActiveCount(r.state) - ActiveCount(s)
    ensures t.price >= s.target && !s.second.active ==>
      && r.state.second.active && !r.state.third.active
      && r.state.target == Target2(p) && r.state.floor == t.price
      && r.outcome == Continue
      && r.records == [RecordTrade(t.at, p.coin, Buy, t.price, AggressiveSecondEntry)]
    ensures t.price >= s.target && s.second.active && !s.third.active ==>
      && r.state.third.active
      && r.state.target == Target3(p) && r.state.floor == t.price
      && r.outcome == Continue
      && r.records == [RecordTrade(t.at, p.coin, Buy, t.price, AggressiveFinalEntry)]
    ensures t.price >= s.target && s.third.active ==>
      && r.state == s.(floor := s.target, target := Raise(p, s.target))
      && r.outcome == Continue && r.records == []
    ensures r.outcome.Closed? <==> t.price < s.target && t.price < s.floor
    ensures r.outcome.Closed? ==>
      && r.state == s
      && r.outcome.profit == AggressiveExitProfit(p, t.price, ActiveCount(s))
      && r.records == [RecordTrade(t.at, p.coin, Sell, t.price, AggressiveModeProfit(r.outcome.profit))]
    ensures t.price < s.target && t.price >= s.floor ==> r == Step(s, Continue, [])
  {
    ActiveTranches(p, s);
    TargetsAscend(p);
    if t.price >= s.target then
      if !s.second.active then
        Step(s.(second := s.second.(active := true), target := Target2(p), floor := t.price), Continue,
             [RecordTrade(t.at, p.coin, Buy, t.price, AggressiveSecondEntry)])
      else if !s.third.active then
        Step(s.(third := s.third.(active := true), target := Target3(p), floor := t.price), Continue,
             [RecordTrade(t.at, p.coin, Buy, t.price, AggressiveFinalEntry)])
      else
        Step(s.(floor := s.target, target := Raise(p, s.target)), Continue, [])
    else if t.price < s.floor && AnyActive(s) then
      var profit := (t.price - p.buyPrice) * ActiveSize(s);
      Step(s, Closed(profit), [RecordTrade(t.at, p.coin, Sell, t.price, AggressiveModeProfit(profit))])
    else
      Step(s, Continue, [])
  }

  /**
    The aggressive loop over a tick stream, up to and including the tick
    that closes the position. The buy entries it appends are exactly the
    tranches it activated; a closing run ends with one sell entry for all
    active tranches at once. When it closes and what a reached target
    does are stated by `RunAggressiveClosesBelowEntry` and
    `RunAggressiveActivates`.
   */
  function RunAggressive(p: TradeParams, s: AggressiveState, ticks: seq<Tick>): (r: Run<AggressiveState>)
    requires Valid(p) && AggressiveInv(p, s)
    ensures AggressiveInv(p, r.state)
    ensures ActiveCount(r.state) >= ActiveCount(s)
    ensures CountBuys(r.records) == ActiveCount(r.state) - ActiveCount(s)
    ensures r.used <= |ticks|
    ensures r.outcome.Continue? ==> r.used == |ticks|
    ensures r.outcome.Closed? ==> 1 <= r.used && r.records != []
    decreases |ticks|
  {
    if ticks == [] then Run(s, Continue, [], 0)
    else
      var st := AggressiveStep(p, s, ticks[0]);
      if st.outcome.Closed? then Run(st.state, st.outcome, st.records, 1)
      else
        var rest := RunAggressive(p, st.state, ticks[1..]);
        CountBuysAppend(st.records, rest.records);
        Run(rest.state, rest.outcome, st.records + rest.records, rest.used + 1)
  }

  /**
    The entries of an aggressive run: while it continues they are all
    buys; a closing run ends with one sell entry, below the floor, for all
    active tranches at once.
   */
  lemma {:induction false} RunAggressiveRecords(p: TradeParams, s: AggressiveState, ticks: seq<Tick>)
    requires Valid(p) && AggressiveInv(p, s)
    ensures var r := RunAggressive(p, s, ticks);
      r.outcome.Continue? ==> AllBuys(r.records)
    ensures var r := RunAggressive(p, s, ticks);
      r.outcome.Closed? ==>
        && Last(r.records).action == Sell
        && Last(r.records).price < r.state.floor
        && r.outcome.profit == AggressiveExitProfit(p, Last(r.records).price, ActiveCount(r.state))
    decreases |ticks|
  {
    if ticks != [] {
      var st := AggressiveStep(p, s, ticks[0]);
      if st.outcome.Continue? {
        RunAggressiveRecords(p, st.state, ticks[1..]);
        AppendRecords(st.records, RunAggressive(p, st.state, ticks[1..]).records);
      }
    }
  }

  /** A step that keeps the position open writes buys only. */
  lemma AggressiveStepContinueBuys(p: TradeParams, s: AggressiveState, t: Tick)
    requires Valid(p) && AggressiveInv(p, s)
    ensures AggressiveStep(p, s, t).outcome.Continue? ==> AllBuys(AggressiveStep(p, s, t).records)
  {
  }

  /**
    Only the closing tick sells: every entry of a closing aggressive run
    before its final sell is a buy, so the run writes exactly one sell.
   */
  lemma {:induction false} RunAggressiveBuysBeforeSell(p: TradeParams, s: AggressiveState, ticks: seq<Tick>)
    requires Valid(p) && AggressiveInv(p, s)
    ensures var r := RunAggressive(p, s, ticks);
      r.outcome.Closed? ==> AllBuys(r.records[..|r.records| - 1])
    decreases |ticks|
  {
    if ticks != [] {
      var st := AggressiveStep(p, s, ticks[0]);
      if st.outcome.Continue? {
        var rest := RunAggressive(p, st.state, ticks[1..]);
        if rest.outcome.Closed? {
          RunAggressiveBuysBeforeSell(p, st.state, ticks[1..]);
          AggressiveStepContinueBuys(p, s, ticks[0]);
          BuysBeforeLast(st.records, rest.records);
        }
      } else {
        assert st.records[..0] == [];
      }
    }
  }

  /**
    Every floor and target is at or above the entry price, so an aggressive
    run closes no later than the first tick below the entry price.
   */
  lemma {:induction false} RunAggressiveClosesBelowEntry(p: TradeParams, s: AggressiveState, ticks: seq<Tick>)
    requires Valid(p) && AggressiveInv(p, s)
    ensures var r := RunAggressive(p, s, ticks);
      forall i :: 0 <= i < |ticks| && ticks[i].price < p.buyPrice ==> r.outcome.Closed? && r.used <= i + 1
    decreases |ticks|
  {
    if ticks != [] {
      TargetsAscend(p);
      var st := AggressiveStep(p, s, ticks[0]);
      if st.outcome.Continue? {
        RunAggressiveClosesBelowEntry(p, st.state, ticks[1..]);
        assert forall i :: 1 <= i < |ticks| ==> ticks[i] == ticks[1..][i - 1];
      }
    }
  }

  /**
    A consumed tick at or above the starting target activates another
    tranche, unless all three were already active.
   */
  lemma {:induction false} RunAggressiveActivates(p: TradeParams, s: AggressiveState, ticks: seq<Tick>)
    requires Valid(p) && AggressiveInv(p, s)
    ensures var r := RunAggressive(p, s, ticks);
      forall i :: 0 <= i < r.used && ticks[i].price >= s.target && !s.third.active ==>
        ActiveCount(r.state) > ActiveCount(s)
    decreases |ticks|
  {
    if ticks != [] {
      var st := AggressiveStep(p, s, ticks[0]);
      if st.outcome.Continue? && !s.third.active {
        if ticks[0].price >= s.target {
          assert ActiveCount(st.state) > ActiveCount(s);
        } else {
          assert st.state == s;
          RunAggressiveActivates(p, s, ticks[1..]);
          assert forall i :: 1 <= i < |ticks| ==> ticks[i] == ticks[1..][i - 1];
        }
      }
    }
  }

  /** Without a consumed tick at the starting target, tranches, target and floor stay where they were. */
  lemma {:induction false} RunAggressiveIdleKeepsState(p: TradeParams, s: AggressiveState, ticks: seq<Tick>)
    requires Valid(p) && AggressiveInv(p, s)
    ensures var r := RunAggressive(p, s, ticks);
      (forall i :: 0 <= i < r.used ==> ticks[i].price < s.target) ==> r.state == s
    decreases |ticks|
  {
    if ticks != [] && ticks[0].price < s.target {
      var st := AggressiveStep(p, s, ticks[0]);
      assert st.state == s;
      if st.outcome.Continue? {
        RunAggressiveIdleKeepsState(p, s, ticks[1..]);
        assert forall i :: 1 <= i < |ticks| ==> ticks[i] == ticks[1..][i - 1];
      }
    }
  }

  /** A closing aggressive run sells at the price of the last tick it consumed. */
  lemma {:induction false} RunAggressiveClosesAtLastTick(p: TradeParams, s: AggressiveState, ticks: seq<Tick>)
    requires Valid(p) && AggressiveInv(p, s)
    ensures var r := RunAggressive(p, s, ticks);
      r.outcome.Closed? ==> Last(r.records).price == ticks[r.used - 1].price
    decreases |ticks|
  {
    if ticks != [] {
      var st := AggressiveStep(p, s, ticks[0]);
      if st.outcome.Continue? {
        RunAggressiveClosesAtLastTick(p, st.state, ticks[1..]);
        var rest := RunAggressive(p, st.state, ticks[1..]);
        if rest.outcome.Closed? {
          assert ticks[rest.used] == ticks[1..][rest.used - 1];
          assert Last(st.records + rest.records) == Last(rest.records);
        }
      }
    }
  }

  /** A whole aggressive trade appends at most three buy entries: one at open and one per later tranche. */
  lemma AtMostThreeBuys(p: TradeParams, at: Timestamp, ticks: seq<Tick>)
    requires Valid(p)
    ensures var o := OpenAggressive(p, at);
      var r := RunAggressive(p, o.0, ticks);
      CountBuys(o.1 + r.records) == ActiveCount(r.state) <= 3
  {
    var s0 := OpenAggressive(p, at).0;
    var openRecords := OpenAggressive(p, at).1;
    var r := RunAggressive(p, s0, ticks);
    CountBuysAppend(openRecords, r.records);
    assert CountBuys(openRecords) == 1 by {
      assert openRecords[..0] == [];
    }
  }

  /**
    The staged-entry scenario: entry 100, 1% target, capital
    300, so one coin per tranche. Price 101 enters the second tranche,
    102.01 the third, and 102 then closes all three together for a profit
    of 6.
   */
  lemma AggressiveScenario()
    ensures var p := TradeParams("bitcoin", 100.0, 300.0, 1.0);
      var at := Timestamp(Date(2025, 1, 1), 0);
      var s0 := OpenAggressive(p, at).0;
      var r := RunAggressive(p, s0, [Tick(101.0, at), Tick(102.01, at), Tick(102.0, at)]);
      r.used == 3 && ActiveCount(r.state) == 3 && r.outcome == Closed(6.0) && |r.records| == 3
  {
    var p := TradeParams("bitcoin", 100.0, 300.0, 1.0);
    var at := Timestamp(Date(2025, 1, 1), 0);
    var ticks := [Tick(101.0, at), Tick(102.01, at), Tick(102.0, at)];
    var s0 := OpenAggressive(p, at).0;
    assert CoinPerEntry(p) == 1.0;
    assert Target2(p) == 102.01;
    var s1 := AggressiveStep(p, s0, ticks[0]);
    assert s1.state.second.active && s1.state.floor == 101.0;
    var s2 := AggressiveStep(p, s1.state, ticks[1]);
    assert s2.state.third.active && s2.state.floor == 102.01;
    var s3 := AggressiveStep(p, s2.state, ticks[2]);
    assert AggressiveExitProfit(p, 102.0, 3) == 6.0;
    assert s3.outcome == Closed(6.0);
    assert ticks[1..][1..] == [ticks[2]];
    var r2 := RunAggressive(p, s2.state, [ticks[2]]);
    assert r2.used == 1 && r2.state == s2.state && r2.outcome == Closed(6.0) && |r2.records| == 1;
    var r1 := RunAggressive(p, s1.state, ticks[1..]);
    assert r1.used == 2 && r1.state == s2.state && r1.outcome == Closed(6.0) && |r1.records| == 2;
  }

  /**
    Unlike the default floor, the aggressive floor can fall: an entry tick
    that gaps far above the target sets the floor to that price, and the
    next entry, at a lower price still above the new target, lowers it.
   */
  lemma AggressiveFloorCanFall()
    ensures var p := TradeParams("bitcoin", 100.0, 300.0, 1.0);
      var at := Timestamp(Date(2025, 1, 1), 0);
      var s0 := OpenAggressive(p, at).0;
      var s1 := AggressiveStep(p, s0, Tick(110.0, at)).state;
      var s2 := AggressiveStep(p, s1, Tick(103.0, at)).state;
      s1.floor == 110.0 && s2.floor == 103.0 && s2.floor < s1.floor
  {
    var p := TradeParams("bitcoin", 100.0, 300.0, 1.0);
    assert Target1(p) == 101.0;
    assert Target2(p) == 102.01;
  }

  // ---------------------------------------------------------------------
  // Dispatch.
  // ---------------------------------------------------------------------

  /**
    `manage_trade`: the mode picks the policy, the position is opened and
    watched over the ticks. `closed` is the `True` the source returns; the
    records are everything appended from open to close.
   */
  datatype TradeResult = TradeResult(policy: Policy, closed: bool, profit: real, records: seq<Record>, used: nat)

  /**
    `manage_default_trade` from open to close: it records no buy, and a
    closed trade has written exactly one sell, whose profit counts the
    whole position. It is closed no later than the first tick below the
    entry price.
   */
  function ManageDefaultTrade(p: TradeParams, ticks: seq<Tick>): (r: TradeResult)
    requires Valid(p)
    ensures r.policy == DefaultPolicy
    ensures r.used <= |ticks|
    ensures !r.closed ==> r.used == |ticks| && r.records == []
    ensures r.closed ==> |r.records| == 1 && r.records[0].action == Sell
    ensures r.closed ==> r.profit == DefaultExitProfit(p, r.records[0].price)
    ensures forall i :: 0 <= i < |ticks| && ticks[i].price < p.buyPrice ==> r.closed && r.used <= i + 1
  {
    var run := RunDefault(p, OpenDefault(p), ticks);
    TradeResult(DefaultPolicy, run.outcome.Closed?, if run.outcome.Closed? then run.outcome.profit else 0.0,
                run.records, run.used)
  }

  /**
    `manage_aggressive_trade` from open to close: the first buy at open,
    up to two more at the targets, and on a close one sell for every
    tranche bought, after buys only. It is closed no later than the first
    tick below the entry price.
   */
  function ManageAggressiveTrade(p: TradeParams, openedAt: Timestamp, ticks: seq<Tick>): (r: TradeResult)
    requires Valid(p)
    ensures r.policy == AggressivePolicy
    ensures r.used <= |ticks|
    ensures 1 <= CountBuys(r.records) <= 3
    ensures !r.closed ==> r.used == |ticks| && AllBuys(r.records)
    ensures r.closed ==> r.records != [] && Last(r.records).action == Sell
    ensures r.closed ==> AllBuys(r.records[..|r.records| - 1])
    ensures r.closed ==> r.profit == AggressiveExitProfit(p, Last(r.records).price, CountBuys(r.records))
    ensures forall i :: 0 <= i < |ticks| && ticks[i].price < p.buyPrice ==> r.closed && r.used <= i + 1
  {
    var s0 := OpenAggressive(p, openedAt).0;
    var run := RunAggressive(p, s0, ticks);
    AggressiveTradeRecords(p, openedAt, ticks);
    RunAggressiveClosesBelowEntry(p, s0, ticks);
    TradeResult(AggressivePolicy, run.outcome.Closed?, if run.outcome.Closed? then run.outcome.profit else 0.0,
                OpenAggressive(p, openedAt).1 + run.records, run.used)
  }

  /** The entries of a whole aggressive trade: the opening buy followed by the run's entries. */
  lemma AggressiveTradeRecords(p: TradeParams, openedAt: Timestamp, ticks: seq<Tick>)
    requires Valid(p)
    ensures var run := RunAggressive(p, OpenAggressive(p, openedAt).0, ticks);
      var recs := OpenAggressive(p, openedAt).1 + run.records;
      && 1 <= CountBuys(recs) <= 3
      && (run.outcome.Continue? ==> AllBuys(recs))
      && (run.outcome.Closed? ==>
          && Last(recs).action == Sell
          && AllBuys(recs[..|recs| - 1])
          && run.outcome.profit == AggressiveExitProfit(p, Last(recs).price, CountBuys(recs)))
  {
    var s0 := OpenAggressive(p, openedAt).0;
    var openRecords := OpenAggressive(p, openedAt).1;
    var run := RunAggressive(p, s0, ticks);
    AtMostThreeBuys(p, openedAt, ticks);
    ActiveTranches(p, run.state);
    RunAggressiveRecords(p, s0, ticks);
    AppendRecords(openRecords, run.records);
    if run.outcome.Closed? {
      RunAggressiveBuysBeforeSell(p, s0, ticks);
      BuysBeforeLast(openRecords, run.records);
    }
  }

  /**
    `manage_trade`: the lower-cased mode picks the policy. A whole trade
    records no buy under the default policy and one to three under the
    aggressive one; a closed trade has written buys only, then its one
    sell, whose profit counts the whole default position or every tranche
    bought. Under either policy the trade is closed no later than the
    first tick below the entry price.
   */
  function ManageTrade(mode: string, p: TradeParams, openedAt: Timestamp, ticks: seq<Tick>): (r: TradeResult)
    requires Valid(p)
    ensures r.policy == SelectPolicy(mode)
    ensures r.used <= |ticks|
    ensures !r.closed ==> r.used == |ticks| && AllBuys(r.records)
    ensures r.closed ==> r.records != [] && Last(r.records).action == Sell
    ensures r.closed ==> AllBuys(r.records[..|r.records| - 1])
    ensures r.policy == DefaultPolicy ==> CountBuys(r.records) == 0
    ensures r.policy == AggressivePolicy ==> 1 <= CountBuys(r.records) <= 3
    ensures r.closed && r.policy == DefaultPolicy ==> r.profit == DefaultExitProfit(p, Last(r.records).price)
    ensures r.closed && r.policy == AggressivePolicy ==>
      r.profit == AggressiveExitProfit(p, Last(r.records).price, CountBuys(r.records))
    ensures forall i :: 0 <= i < |ticks| && ticks[i].price < p.buyPrice ==> r.closed && r.used <= i + 1
  {
    if SelectPolicy(mode) == AggressivePolicy then ManageAggressiveTrade(p, openedAt, ticks)
    else
      var r := ManageDefaultTrade(p, ticks);
      assert CountBuys(r.records) == 0 && (r.records != [] ==> r.records[..0] == []) by {
        if r.records != [] { assert r.records[..0] == []; }
      }
      r
  }
}

=== FILE: window.dfy ===
/**
  The rolling window of main.py: the stored price list and 24h-change list
  of one market, each cut to its last 60 entries after every append.
 */
module PriceWindow {

  /** How many observations are kept, and how many the trend filter demands. */
  const Capacity: nat := 60

  /** One poll of the feed: the spot price and the signed 24h change in percent. */
  datatype Observation = Observation(price: real, change24h: real)

  /** The stored market row: prices and changes, oldest first. */
  datatype Window = Window(prices: seq<real>, changes: seq<real>)

  /** What storage ever holds: two lists of equal length, neither longer than the capacity. */
  predicate WellFormed(w: Window)
  {
    |w.prices| == |w.changes| <= Capacity
  }

  /** The hand-off condition `len(price_ranges) == 60`. */
  predicate Full(w: Window)
  {
    |w.prices| == Capacity
  }

  /** Python's slice `s[-n:]` for n > 0: the last n elements, or all of s when it is shorter. */
  function TakeLast<T>(s: seq<T>, n: nat): (r: seq<T>)
    requires n > 0
    ensures |r| == if |s| <= n then |s| else n
    ensures r == s[|s| - |r|..]
  {
    if |s| <= n then s else s[|s| - n..]
  }

  /**
    One append-then-truncate of main.py: the new value becomes the last
    entry, the oldest entries are evicted first, and the survivors keep
    their order.
   */
  function Push(xs: seq<real>, x: real): (r: seq<real>)
    ensures |r| <= Capacity
    ensures |r| == if |xs| < Capacity then |xs| + 1 else Capacity
    ensures r[|r| - 1] == x
    ensures forall i :: 0 <= i < |r| - 1 ==> r[i] == xs[|xs| - (|r| - 1) + i]
  {
    TakeLast(xs + [x], Capacity)
  }

  /** One poll's update of both lists of the stored market row. */
  function Update(w: Window, o: Observation): (r: Window)
    ensures |r.prices| <= Capacity && |r.changes| <= Capacity
    ensures |w.prices| == |w.changes| ==> WellFormed(r)
    ensures |r.prices| > 0 && |r.changes| > 0
    ensures r.prices[|r.prices| - 1] == o.price && r.changes[|r.changes| - 1] == o.change24h
    ensures |w.prices| < Capacity ==> |r.prices| == |w.prices| + 1
    ensures |w.prices| >= Capacity ==> |r.prices| == Capacity
  {
    Window(Push(w.prices, o.price), Push(w.changes, o.change24h))
  }

  /** The prices of a run of observations, in order. */
  function PricesOf(obs: seq<Observation>): (r: seq<real>)
    ensures |r| == |obs|
  {
    seq(|obs|, i requires 0 <= i < |obs| => obs[i].price)
  }

  /** The 24h changes of a run of observations, in order. */
  function ChangesOf(obs: seq<Observation>): (r: seq<real>)
    ensures |r| == |obs|
  {
    seq(|obs|, i requires 0 <= i < |obs| => obs[i].change24h)
  }

  /** The window after updating with each observation of `obs` in turn. */
  function UpdateAll(w: Window, obs: seq<Observation>): (r: Window)
    requires WellFormed(w)
    ensures WellFormed(r)
    ensures obs == [] ==> r == w
    ensures obs != [] ==> |r.prices| == if |w.prices| + |obs| < Capacity then |w.prices| + |obs| else Capacity
    decreases |obs|
  {
    if obs == [] then w else Update(UpdateAll(w, obs[..|obs| - 1]), obs[|obs| - 1])
  }

  /** Updating with one more observation is one more update. */
  lemma UpdateAllSnoc(w: Window, obs: seq<Observation>, o: Observation)
    requires WellFormed(w)
    ensures UpdateAll(w, obs + [o]) == Update(UpdateAll(w, obs), o)
  {
    assert (obs + [o])[..|obs|] == obs;
  }

  /** Truncating twice is truncating once: dropping old entries early changes nothing later. */
  lemma TakeLastOfTakeLast<T>(a: seq<T>, b: seq<T>, n: nat)
    requires n > 0
    ensures TakeLast(TakeLast(a, n) + b, n) == TakeLast(a + b, n)
  {
    if |a| > n {
      var k := |a| - n;
      assert TakeLast(a, n) + b == (a + b)[k..];
    }
  }

  /** Keeping the last n entries of something that ends in n given entries yields exactly those. */
  lemma TakeLastOfExactTail<T>(a: seq<T>, b: seq<T>, n: nat)
    requires n > 0
    requires |b| == n
    ensures TakeLast(a + b, n) == b
  {
    assert (a + b)[|a|..] == b;
  }

  /** Splitting off the last observation splits off the last price. */
  lemma PricesOfSnoc(obs: seq<Observation>)
    requires obs != []
    ensures PricesOf(obs[..|obs| - 1]) + [obs[|obs| - 1].price] == PricesOf(obs)
  {
    var l := PricesOf(obs[..|obs| - 1]) + [obs[|obs| - 1].price];
    forall i | 0 <= i < |obs|
      ensures l[i] == PricesOf(obs)[i]
    {
      if i < |obs| - 1 {
        assert l[i] == PricesOf(obs[..|obs| - 1])[i] == obs[i].price;
      }
    }
  }

  /** Splitting off the last observation splits off the last 24h change. */
  lemma ChangesOfSnoc(obs: seq<Observation>)
    requires obs != []
    ensures ChangesOf(obs[..|obs| - 1]) + [obs[|obs| - 1].change24h] == ChangesOf(obs)
  {
    var l := ChangesOf(obs[..|obs| - 1]) + [obs[|obs| - 1].change24h];
    forall i | 0 <= i < |obs|
      ensures l[i] == ChangesOf(obs)[i]
    {
      if i < |obs| - 1 {
        assert l[i] == ChangesOf(obs[..|obs| - 1])[i] == obs[i].change24h;
      }
    }
  }

  /** One more push on a truncated list equals truncating the longer list. */
  lemma PushOnTakeLast(xs: seq<real>, ys: seq<real>, y: real)
    ensures Push(TakeLast(xs + ys, Capacity), y) == TakeLast(xs + (ys + [y]), Capacity)
  {
    TakeLastOfTakeLast(xs + ys, [y], Capacity);
    assert xs + ys + [y] == xs + (ys + [y]);
  }

  /**
    The window bound, for prices: from any stored window,
    after any run of updates, the list holds exactly the last (at most 60)
    entries of the old list followed by the new values, in their order.
   */
  lemma {:induction false} UpdateAllKeepsLatestPrices(w: Window, obs: seq<Observation>)
    requires WellFormed(w)
    ensures UpdateAll(w, obs).prices == TakeLast(w.prices + PricesOf(obs), Capacity)
    decreases |obs|
  {
    if obs == [] {
      assert w.prices + PricesOf(obs) == w.prices;
    } else {
      var init := obs[..|obs| - 1];
      var o := obs[|obs| - 1];
      UpdateAllKeepsLatestPrices(w, init);
      assert UpdateAll(w, obs).prices == Push(UpdateAll(w, init).prices, o.price);
      PushOnTakeLast(w.prices, PricesOf(init), o.price);
      PricesOfSnoc(obs);
    }
  }

  /** The same bound for the list of 24h changes. */
  lemma {:induction false} UpdateAllKeepsLatestChanges(w: Window, obs: seq<Observation>)
    requires WellFormed(w)
    ensures UpdateAll(w, obs).changes == TakeLast(w.changes + ChangesOf(obs), Capacity)
    decreases |obs|
  {
    if obs == [] {
      assert w.changes + ChangesOf(obs) == w.changes;
    } else {
      var init := obs[..|obs| - 1];
      var o := obs[|obs| - 1];
      UpdateAllKeepsLatestChanges(w, init);
      assert UpdateAll(w, obs).changes == Push(UpdateAll(w, init).changes, o.change24h);
      PushOnTakeLast(w.changes, ChangesOf(init), o.change24h);
      ChangesOfSnoc(obs);
    }
  }

  /** After 60 or more updates nothing of the old window is left: it holds the last 60 new observations. */
  lemma FullRefresh(w: Window, obs: seq<Observation>)
    requires WellFormed(w)
    requires |obs| >= Capacity
    ensures UpdateAll(w, obs).prices == PricesOf(obs[|obs| - Capacity..])
    ensures UpdateAll(w, obs).changes == ChangesOf(obs[|obs| - Capacity..])
  {
    UpdateAllKeepsLatestPrices(w, obs);
    UpdateAllKeepsLatestChanges(w, obs);
    var k := |obs| - Capacity;
    assert PricesOf(obs) == PricesOf(obs[..k]) + PricesOf(obs[k..]);
    assert ChangesOf(obs) == ChangesOf(obs[..k]) + ChangesOf(obs[k..]);
    assert w.prices + PricesOf(obs) == (w.prices + PricesOf(obs[..k])) + PricesOf(obs[k..]);
    assert w.changes + ChangesOf(obs) == (w.changes + ChangesOf(obs[..k])) + ChangesOf(obs[k..]);
    TakeLastOfExactTail(w.prices + PricesOf(obs[..k]), PricesOf(obs[k..]), Capacity);
    TakeLastOfExactTail(w.changes + ChangesOf(obs[..k]), ChangesOf(obs[k..]), Capacity);
  }
}
